=== FILE: README.md ===
# DAPG update: a Dafny model

This project models the discrete control logic of one update of the DAPG
algorithm (Demo Augmented Policy Gradient) in `mjrl/mjrl/algos/dapg.py`.
That update is `DAPG.train_from_paths`, together with the state that
`DAPG.__init__` sets up. The numerics (autodiff gradients, conjugate
gradient, Fisher-vector products, square roots) are abstract collaborators.
The model keeps everything the code decides around them:

- **Batch assembly** (`Batches`, `Advantages`, `Assembly`). Sampled paths are
  flattened in path order and their advantages normalised. In the
  demonstration branch, demo rows are projected onto the 27 observation
  columns and 18 action columns, and each demo sample gets the
  pseudo-advantage `lam_0 * lam_1^t`. The sampled data comes first and the
  demo data after it; the combined advantages (only they) are multiplied
  by the global weight `DAPG_ADV_W`.
  `sample_coef` is the combined size over the sampled size.
- **Decay counter** (`Agent`). `iter_count` goes up by exactly one per update
  that takes the demonstration branch (a demo pool is present and
  `lam_0 > 0`). Otherwise it stays put.
- **Return statistics and running score** (`ReturnStats`). `base_stats` is
  `[mean, std, min, max]` of the per-path reward sums. The running score is
  set to the mean on the first update and is then a 0.9/0.1 exponential
  moving average.
- **Trust-region step and backtracking line search** (`TrustRegion`,
  `LineSearch`). `lm = sqrt(shs / 0.01)` and `full_step = npg / lm`. The
  search makes at most ten trials at `alpha = 2^-k` and accepts a trial
  when `ratio > 0.1 and actual_improve > 0`. If the tenth trial is rejected,
  `alpha` is forced to 0. The chosen `curr_params + alpha * full_step` is
  committed as both the current and the frozen ("old") parameters.
- **The update as a whole** (`Train`). `TrainFromPaths` chains these steps.
  It returns the statistics, or it raises with the agent state in which the
  exception leaves it.

Reals are exact. The square root is an oracle `sqrt` that returns a
non-negative root of every non-negative real (`RealSeq.IsSqrt`), so
`np.std` is that root of the population variance. The surrogate, its
gradients, `cg_solve` and the Fisher-vector product are function-valued
fields of `Train.Collaborators`. The only thing the model requires of them
is that they return vectors of the policy's parameter dimension.

Exceptions the source raises on its own inputs are modelled as
`Wrappers.Error`:

- `np.concatenate` over an empty list of sampled paths or demo paths is
  `EmptyConcatenation`.
- A demonstration row too narrow for an index list is `IndexOutOfRange`.
- The division for `sample_coef` over an empty sampled batch is
  `ZeroDivision`. It is raised after `iter_count` and `running_score` have
  already been updated, and the model's `Raised` result carries that
  partially updated agent.

Two facts about the code are easy to miss:

- `iter_count` is bumped only in the demonstration branch (line 73), not on
  every update.
- In the combined batch the sampled rows come before the demo rows (lines
  75-77).

## Model

| member | source | states |
|---|---|---|
| `Agent.Init` | mjrl/mjrl/algos/dapg.py:30-55 | a new agent has `kl_dist` equal to the given value, or half the step size when none is given; `iter_count` 0; no running score; the demo pool and `lam_0`, `lam_1` as given |
| `Agent.DefaultConfiguration` | mjrl/mjrl/algos/dapg.py:32-54 | with default arguments, `kl_dist` is 0.005, `lam_0` is 1, `lam_1` is 0.95, and the first pseudo-advantage is 1.0 |
| `Agent.DemoBranch` | mjrl/mjrl/algos/dapg.py:69 | the branch condition `demo_paths is not None and lam_0 > 0`; what it decides is stated by `Agent.Tick`, `Assembly.Assemble` and `Train.VanillaUpdate` |
| `Agent.PseudoAdvantage` | mjrl/mjrl/algos/dapg.py:72 | the per-sample demo advantage of the next demonstration branch is `lam_0` on the first update and, for `lam_0 > 0` and `0 < lam_1 <= 1`, stays in `(0, lam_0]` on every later one |
| `Agent.Tick` | mjrl/mjrl/algos/dapg.py:69-73 | the counter goes up by one in the demonstration branch; otherwise the agent is unchanged; no other field ever changes |
| `Agent.TicksCount` | mjrl/mjrl/algos/dapg.py:54-73 | after `n` updates the counter has gone up by exactly `n` in the demonstration branch, and every other field is as before |
| `Agent.DecaySchedule` | mjrl/mjrl/algos/dapg.py:72-73 | from a fresh agent in the demonstration branch, update number `n` gives demo samples `lam_0 * lam_1^n` |
| `Agent.DecayTwoCalls` | mjrl/mjrl/algos/dapg.py:72-73 | with `lam_0 = 1` and `lam_1 = 0.95`, two successive demo updates use 1.0 and then 0.95 |
| `Batches.Concatenate` | mjrl/mjrl/algos/dapg.py:64-66 | the sampled observations, actions and advantages have lengths equal to the summed per-path lengths |
| `Batches.ConcatenateAppend` | mjrl/mjrl/algos/dapg.py:64-66 | concatenating `p + q` gives `p`'s rows followed by `q`'s, for all three arrays: path order is kept and nothing is lost |
| `Batches.ConcatenateSingle` | mjrl/mjrl/algos/dapg.py:64-66 | a single path concatenates to its own arrays |
| `Batches.IndexLists` | mjrl/mjrl/algos/dapg.py:61-62 | the observation list has 27 strictly increasing columns ending at 38; the action list is its first 18 columns, ending at 29 |
| `Batches.CoversObservationRow` | mjrl/mjrl/algos/dapg.py:61-70 | a demo observation row can be projected exactly when it has at least 39 columns |
| `Batches.CoversActionRow` | mjrl/mjrl/algos/dapg.py:62-71 | a demo action row can be projected exactly when it has at least 30 columns |
| `Batches.ProjectEachIsProjectFlatten` | mjrl/mjrl/algos/dapg.py:70-71 | projecting each demo path and then concatenating equals concatenating first and then projecting |
| `Batches.DemoRows` | mjrl/mjrl/algos/dapg.py:70-71 | demo row `j` is row `j` of the concatenated demo array restricted to the index list: width 27 for observations, 18 for actions, with the same row count |
| `Batches.DemoObservations` | mjrl/mjrl/algos/dapg.py:70 | the projected demo observations; their count and width-27 rows are given by `Batches.DemoRows` |
| `Batches.DemoActions` | mjrl/mjrl/algos/dapg.py:71 | the projected demo actions; their count and width-18 rows are given by `Batches.DemoRows` |
| `Advantages.Normalize` | mjrl/mjrl/algos/dapg.py:67 | one normalised advantage per sample, `(adv - mean) / (std + 1e-6)`; it sums to zero and keeps the order of samples (`Advantages.NormalizeCentres`, `Advantages.NormalizeKeepsOrder`) |
| `Advantages.NormalizeCentres` | mjrl/mjrl/algos/dapg.py:67 | normalised sampled advantages sum to zero |
| `Advantages.NormalizeKeepsOrder` | mjrl/mjrl/algos/dapg.py:67 | normalisation keeps the strict order of any two samples, in both directions |
| `Advantages.RescaleKeepsSignAndOrder` | mjrl/mjrl/algos/dapg.py:77 | the demo-branch rescaling by `std + 1e-8` keeps each sample's sign and the order of any two samples |
| `Advantages.Rescale` | mjrl/mjrl/algos/dapg.py:77 | one rescaled advantage per sample, `adv / (std + 1e-8)`; it keeps signs and order (`Advantages.RescaleKeepsSignAndOrder`) |
| `Assembly.SampledBatch` | mjrl/mjrl/algos/dapg.py:64-67 | the sampled batch holds the concatenated observations and actions and one normalised advantage per concatenated advantage; the normalised advantages sum to zero and keep the order of the raw ones |
| `Assembly.Weighted` | mjrl/mjrl/algos/dapg.py:77 | the weighted concatenation has the sampled entries first and the demo entries after them, each multiplied by the weight |
| `Assembly.Blend` | mjrl/mjrl/algos/dapg.py:70-77 | the demonstration branch keeps the sampled batch and ticks the agent; its combined contents are `Assembly.DemoBranchContents` |
| `Assembly.Assemble` | mjrl/mjrl/algos/dapg.py:64-84 | assembly succeeds exactly when there are sampled paths and, in the demo branch, a non-empty demo pool that is wide enough; it fails with the exception the source raises otherwise; on success the sampled batch is the normalised concatenation and the agent has ticked; without demos the combined batch is the sampled batch |
| `Assembly.DemoBranchContents` | mjrl/mjrl/algos/dapg.py:70-77 | in the demo branch, the combined observations and actions are the sampled ones followed by the projected demo rows; there is one demo advantage per demo observation row, each equal to `lam_0 * lam_1^t` for the pre-call counter `t`; the combined advantages are the weighted rescaled sampled ones, then the weighted demo ones |
| `Assembly.CombinedLayout` | mjrl/mjrl/algos/dapg.py:75-77 | in the demo branch the combined batch has `N + D` rows: the first `N` are the sampled rows, the rest are the demo rows, each of width 27; `sample_coef = (N + D) / N >= 1` |
| `Assembly.VanillaWithoutDemos` | mjrl/mjrl/algos/dapg.py:78-84 | without a demo pool, or with `lam_0 <= 0`, the combined batch is the sampled batch, the counter is unchanged and `sample_coef == 1` |
| `Assembly.SampleCoefficient` | mjrl/mjrl/algos/dapg.py:130 | `sample_coef` times the sampled size is the combined size |
| `Assembly.SampleCoefficientBounds` | mjrl/mjrl/algos/dapg.py:130 | `sample_coef` is exactly 1 without demos and at least 1 with them |
| `Assembly.DecayAcrossUpdates` | mjrl/mjrl/algos/dapg.py:72-73 | two successive assemblies from a fresh default agent give demo pseudo-advantages of 1.0 and then 0.95, and leave the counter at 2 |
| `RealSeq.Min` | mjrl/mjrl/algos/dapg.py:113 | the minimum is at most every entry |
| `RealSeq.Max` | mjrl/mjrl/algos/dapg.py:114 | the maximum is at least every entry |
| `RealSeq.ExtremesAreEntries` | mjrl/mjrl/algos/dapg.py:113-114 | the minimum and the maximum are entries of the vector |
| `RealSeq.MeanBetween` | mjrl/mjrl/algos/dapg.py:111-114 | the mean lies between the minimum and the maximum |
| `RealSeq.Std` | mjrl/mjrl/algos/dapg.py:112 | the standard deviation is non-negative and squares to the population variance |
| `ReturnStats.PathReturns` | mjrl/mjrl/algos/dapg.py:110 | one return per path; each is by definition the sum of that path's rewards, and `ReturnStats.BaseStats` bounds them |
| `ReturnStats.BaseStats` | mjrl/mjrl/algos/dapg.py:110-115 | `mean` is the mean of the path returns; `min <= mean <= max`; every path return lies between min and max, and both are path returns; `std` is non-negative and squares to the population variance of the returns |
| `ReturnStats.TwoPathScenario` | mjrl/mjrl/algos/dapg.py:110-115 | two one-step paths with rewards 1 and 3 give `base_stats == [2, 1, 1, 3]` |
| `ReturnStats.RunningScore` | mjrl/mjrl/algos/dapg.py:116-117 | on the first update the score is the mean return; afterwards its distance to the mean is 0.9 times the previous distance, so it lies between the previous score and the mean |
| `ReturnStats.ScoreFirstTwoUpdates` | mjrl/mjrl/algos/dapg.py:116-117 | the first update gives the score `m1`; the second gives `0.9 * m1 + 0.1 * m2` |
| `ReturnStats.ScoreWithinRange` | mjrl/mjrl/algos/dapg.py:116-117 | over any run of updates, the running score stays within the range of the mean returns seen |
| `ReturnStats.ScoreOfConstant` | mjrl/mjrl/algos/dapg.py:116-117 | if every update has the same mean return, the running score equals that value |
| `TrustRegion.TrustRegionStep` | mjrl/mjrl/algos/dapg.py:154-156 | the step is finite exactly when the curvature `npg . Hvp(npg)` is positive; then `lm > 0`, `lm^2 = shs / 0.01`, and `full_step * lm == npg` entry by entry |
| `LineSearch.Backtrack` | mjrl/mjrl/algos/dapg.py:165-184 | from trial `k` on, `alpha` ends at 0 exactly when no remaining trial passes, and then all ten trials have run; otherwise `alpha = 2^-j` for the first passing trial `j`, and the loop stopped right after it |
| `LineSearch.Run` | mjrl/mjrl/algos/dapg.py:164-184 | at most ten trials; `alpha` is 0 exactly when none of trials 0..9 passes; otherwise it is `2^-k` for the first passing `k` |
| `LineSearch.CommitIsAcceptedTrial` | mjrl/mjrl/algos/dapg.py:164-186 | the final write either keeps `curr_params` (`alpha` is 0, no trial passed) or repeats exactly the parameters of the first trial that passed |
| `LineSearch.TrialParams` | mjrl/mjrl/algos/dapg.py:166-186 | `curr_params + alpha * full_step`, tried on line 166 and written on line 186; it has the parameters' dimension and is `curr_params` itself for `alpha == 0` |
| `LineSearch.ActualImprove` | mjrl/mjrl/algos/dapg.py:126-171 | `actual_improve` is positive exactly when the trial raises the surrogate above its value at `curr_params` (line 126), and is zero for the null step |
| `LineSearch.ExpectedImprove` | mjrl/mjrl/algos/dapg.py:160-172 | `expected_improve` times `lm` is `neggdotstepdir * alpha`; for a positive `alpha` it has the sign of `neggdotstepdir` |
| `LineSearch.Accepts` | mjrl/mjrl/algos/dapg.py:171-176 | the acceptance test `ratio > 0.1 and actual_improve > 0`, with a zero expected improvement read as a `+inf` ratio; characterised by `LineSearch.AcceptanceThreshold` |
| `LineSearch.AcceptanceThreshold` | mjrl/mjrl/algos/dapg.py:171-176 | for a positive expected improvement, a trial passes exactly when `actual > 0.1 * expected`; for a negative one, no trial passes; for zero, any positive gain passes |
| `LineSearch.FirstTrialAccepted` | mjrl/mjrl/algos/dapg.py:164-186 | if trial 0 passes, `alpha = 1` after one trial and the commit is `curr_params + full_step` |
| `LineSearch.NoTrialAccepted` | mjrl/mjrl/algos/dapg.py:165-186 | if no trial passes, `alpha = 0` after ten trials and the commit is `curr_params` itself |
| `LineSearch.LastTrialAccepted` | mjrl/mjrl/algos/dapg.py:176-184 | since `break` comes before the `k == 9` reset, a tenth trial that passes keeps `alpha = 1/512` |
| `LineSearch.DescentRejected` | mjrl/mjrl/algos/dapg.py:160-176 | a negative slope `loss_grad . npg_grad` makes every expected improvement negative, so the update is a no-op |
| `Train.SearchOf` | mjrl/mjrl/algos/dapg.py:126-163 | with `npg` the natural gradient of `sample_coef * flat_vpg`, the search is `None` exactly when the curvature `npg . Hvp(npg)` is not positive; otherwise its slope is `loss_grad . npg`, `lm^2 = 0.5 * npg . Hvp(npg) / 0.01`, `full_step * lm == npg` entry by entry, and it starts from the current parameters with `surr_before` the surrogate there |
| `Train.Optimise` | mjrl/mjrl/algos/dapg.py:130-190 | an empty sampled batch is the only division by zero; a non-finite step is the only other way not to commit; a committed update has the `alpha` and trial count of `LineSearch.Run` on the search of `Train.SearchOf` and writes that search's `TrialParams` at `alpha` as both current and frozen parameters; at most ten trials; `alpha` is 0 (parameters unchanged) or `2^-k` for some `k < 10` |
| `Train.AgentAfter` | mjrl/mjrl/algos/dapg.py:69-117 | once assembly succeeds, the counter has ticked and the running score has taken in the mean return; an assembly that raises leaves the agent unchanged; no other field changes |
| `Train.TrainFromPaths` | mjrl/mjrl/algos/dapg.py:57-190 | an assembly that raises gives `Raised` with the very exception `Assembly.Assemble` names and the agent untouched; the update diverges exactly when `Train.Optimise` meets a non-finite step on the assembled batches, so every other update past assembly with a non-empty sampled batch completes; an update leaves `Train.AgentAfter` behind in every outcome, so exceptions raised by assembly leave the agent untouched and a `sample_coef` division by zero happens after the tick and the score update; the division by zero happens exactly when the sampled batch is empty; a completed update returns `BaseStats` of the paths, and its policy, `alpha`, trial count and `sample_coef` are those `Train.Optimise` commits on the assembled batches; current and frozen parameters agree; `sample_coef` is 1 without demos and at least 1 with them |
| `Train.VanillaUpdate` | mjrl/mjrl/algos/dapg.py:69-84 | with `lam_0 <= 0`, the update equals the one an agent without a demo pool performs: same statistics, parameters, `alpha`, trials and `sample_coef == 1`, and the counter is unchanged |
| `Train.FiniteStepCompletes` | mjrl/mjrl/algos/dapg.py:126-210 | an update past assembly with a non-empty sampled batch and a finite step returns `base_stats` of the paths and commits `LineSearch.Run`'s `alpha` and `LineSearch.TrialParams` as both current and frozen parameters |
| `Train.StillAssembles` | mjrl/mjrl/algos/dapg.py:69-84 | an update that gets past assembly keeps the demonstration setting, so a batch that assembled before still assembles after it |
| `Train.RunningScoreTwoUpdates` | mjrl/mjrl/algos/dapg.py:110-117 | from an agent with no running score, two successive updates that get past assembly leave running scores equal to the first mean return, then `0.9 * mean1 + 0.1 * mean2`; this holds even when an update later raises or diverges, whatever the policy |

## Left out

- The autodiff and solver collaborators `CPI_surrogate`, `flat_vpg`, `build_Hvp_eval`, `kl_old_new` and `cg_solve` are not modelled; they are fields of `Train.Collaborators` with no specification beyond their output dimension. Their code (`npg_cg.py`, `cg_solve.py`) is not part of this model.
- `kl_old_new` and the KL values it returns (lines 169 and 189) feed only the log, so the model does not compute them.
- Floating-point behaviour is not modelled. Reals are exact: rounding, the `1e-20` floor and the `alpha` of line 145 (dead: overwritten on line 164 before any use) are left out.
- `TrustRegion.TrustRegionStep`: when the curvature is zero or negative, the source keeps going with an infinite or NaN `full_step`. The model stops with `None` (`Train.Diverged`) and does not follow those values. In the source the forced `alpha = 0` does not protect the policy then: `0 * inf` is NaN on line 186, so line 190 writes NaN into both the current and the frozen parameters.
- `LineSearch.Accepts`: with `expected_improve == 0`, the ratio is taken to be `+inf`, as for a positive zero. A negative zero (giving `-inf`) is not distinguished, and NaN surrogate values cannot occur.
- `iter_count` is a Python float in the source. The model keeps it as a natural number, which matches exactly as long as the float is exact (below 2^53).
- numpy's shape checks are left out: mismatched row widths between sampled arrays, or between sampled and demo rows, would make `np.concatenate` raise. Rows are sequences of any width, and a demo path with no rows is not checked against the index lists.
- The trial writes of the line search (`set_param_values(..., set_old=False)` on line 167) are not modelled separately. Only the final commit (lines 186-190) changes the modelled `Train.Policy`.
- `cfg.DAPG_ADV_W` is the `advWeight` field of the agent. `FIM_invert_args`, `hvp_sample_frac` and `seed` only configure the abstract collaborators or are unused, so they are not fields.
- Logging, `print`, wall-clock timing and the nested `try/except` around `evaluate_success` (lines 118-122 and 192-209) are I/O and best-effort diagnostics.

=== FILE: advantages.dfy ===
/** Advantage normalisation of `DAPG.train_from_paths` (the sampled
    advantages, and their extra rescaling in the demonstration branch). */
module Advantages {
  import opened RealSeq

  /** Floor added to the standard deviation when normalising sampled advantages. */
  const NormalizeFloor: real := 0.000001

  /** Floor added to the standard deviation in the demonstration branch's rescaling. */
  const RescaleFloor: real := 0.00000001

  /** `(adv - mean(adv)) / (std(adv) + 1e-6)`; an empty vector stays empty. */
  function Normalize(adv: seq<real>, sqrt: real -> real): (r: seq<real>)
    requires IsSqrt(sqrt)
    ensures |r| == |adv|
  {
    if |adv| == 0 then [] else Divide(Shift(adv, Mean(adv)), Std(adv, sqrt) + NormalizeFloor)
  }

  /** `adv / (std(adv) + 1e-8)`; an empty vector stays empty. */
  function Rescale(adv: seq<real>, sqrt: real -> real): (r: seq<real>)
    requires IsSqrt(sqrt)
    ensures |r| == |adv|
  {
    if |adv| == 0 then [] else Divide(adv, Std(adv, sqrt) + RescaleFloor)
  }

  /** Normalised advantages have zero mean. */
  lemma NormalizeCentres(adv: seq<real>, sqrt: real -> real)
    requires IsSqrt(sqrt)
    requires |adv| > 0
    ensures Sum(Normalize(adv, sqrt)) == 0.0
  {
    var m := Mean(adv);
    SumShift(adv, m);
    TimesIsProduct(|adv|, m);
    assert Times(|adv|, m) == Sum(adv);
    SumDivide(Shift(adv, m), Std(adv, sqrt) + NormalizeFloor);
  }

  /** Normalisation keeps the ranking of the samples: it is strictly increasing. */
  lemma NormalizeKeepsOrder(adv: seq<real>, sqrt: real -> real, i: nat, j: nat)
    requires IsSqrt(sqrt)
    requires i < |adv| && j < |adv|
    ensures adv[i] < adv[j] <==> Normalize(adv, sqrt)[i] < Normalize(adv, sqrt)[j]
  {
    var d := Std(adv, sqrt) + NormalizeFloor;
    DivideKeepsOrder(adv[i] - Mean(adv), adv[j] - Mean(adv), d);
  }

  /** The demonstration-branch rescaling keeps every sign and the ranking. */
  lemma RescaleKeepsSignAndOrder(adv: seq<real>, sqrt: real -> real, i: nat, j: nat)
    requires IsSqrt(sqrt)
    requires i < |adv| && j < |adv|
    ensures 0.0 < adv[i] <==> 0.0 < Rescale(adv, sqrt)[i]
    ensures adv[i] < adv[j] <==> Rescale(adv, sqrt)[i] < Rescale(adv, sqrt)[j]
  {
    var d := Std(adv, sqrt) + RescaleFloor;
    DivideKeepsOrder(0.0, adv[i], d);
    DivideKeepsOrder(adv[i], adv[j], d);
  }

  lemma DivideKeepsOrder(x: real, y: real, d: real)
    requires 0.0 < d
    ensures x < y <==> x / d < y / d
  {
    assert y / d - x / d == (y - x) / d;
  }
}

=== FILE: agent.dfy ===
/** The persistent state of a DAPG agent (`DAPG.__init__`) and its
    demonstration-weight decay counter. */
module Agent {
  import opened Wrappers
  import opened RealSeq
  import opened Batches

  /** Default trust-region scale `normalized_step_size`. */
  const DefaultStepSize: real := 0.01
  /** Default demonstration coefficient `lam_0`. */
  const DefaultLam0: real := 1.0
  /** Default decay coefficient `lam_1`. */
  const DefaultLam1: real := 0.95

  /** The fields of a DAPG object that the update reads or writes.
      `advWeight` stands for the global `cfg.DAPG_ADV_W`. */
  datatype Dapg = Dapg(
    demoPaths: Option<seq<Path>>,
    klDist: real,
    lam0: real,
    lam1: real,
    advWeight: real,
    iterCount: nat,
    runningScore: Option<real>)

  /** `DAPG.__init__`: `kl_dist` falls back to half the step size; the decay
      counter starts at zero and there is no running score yet. */
  function Init(demoPaths: Option<seq<Path>>, normalizedStepSize: real, klDist: Option<real>,
                lam0: real, lam1: real, advWeight: real): (a: Dapg)
    ensures a.iterCount == 0 && a.runningScore == None
    ensures klDist.Some? ==> a.klDist == klDist.value
    ensures klDist.None? ==> a.klDist == normalizedStepSize / 2.0
    ensures a.demoPaths == demoPaths && a.lam0 == lam0 && a.lam1 == lam1
  {
    var kl := if klDist.Some? then klDist.value else 0.5 * normalizedStepSize;
    Dapg(demoPaths, kl, lam0, lam1, advWeight, 0, None)
  }

  /** An agent built with every keyword argument at its default. */
  function Default(demoPaths: Option<seq<Path>>, advWeight: real): (a: Dapg)
  {
    Init(demoPaths, DefaultStepSize, None, DefaultLam0, DefaultLam1, advWeight)
  }

  /** The update blends in demonstrations: there is a demo pool and `lam_0 > 0`. */
  predicate DemoBranch(a: Dapg)
  {
    a.demoPaths.Some? && a.lam0 > 0.0
  }

  /** The pseudo-advantage the next demonstration branch gives every demo
      sample: `lam_0` on the first update and, for a decay factor in (0, 1],
      never above it and never down to zero. */
  function PseudoAdvantage(a: Dapg): (p: real)
    ensures a.iterCount == 0 ==> p == a.lam0
    ensures 0.0 < a.lam0 && 0.0 < a.lam1 <= 1.0 ==> 0.0 < p <= a.lam0
  {
    DecayedBelow(a.lam0, a.lam1, a.iterCount);
    a.lam0 * Pow(a.lam1, a.iterCount)
  }

  /** The counter transition of one update: bumped once in the demonstration
      branch, untouched otherwise. */
  function Tick(a: Dapg): (r: Dapg)
    ensures DemoBranch(a) ==> r.iterCount == a.iterCount + 1
    ensures !DemoBranch(a) ==> r == a
    ensures r.(iterCount := a.iterCount) == a
  {
    if DemoBranch(a) then a.(iterCount := a.iterCount + 1) else a
  }

  /** The agent after `n` successive updates, as far as the counter is concerned. */
  function Ticks(a: Dapg, n: nat): (r: Dapg)
  {
    if n == 0 then a else Tick(Ticks(a, n - 1))
  }

  // ---------------------------------------------------------------------
  // Lemmas

  /** The default agent's KL target is 0.005 and its decay starts at 1.0 * 0.95^0. */
  lemma DefaultConfiguration(demoPaths: Option<seq<Path>>, w: real)
    ensures Default(demoPaths, w).klDist == 0.005
    ensures Default(demoPaths, w).lam0 == 1.0 && Default(demoPaths, w).lam1 == 0.95
    ensures PseudoAdvantage(Default(demoPaths, w)) == 1.0
  {
  }

  /** After `n` updates the counter has advanced by `n` in the demonstration
      branch and by nothing otherwise; nothing else has changed. */
  lemma {:induction false} TicksCount(a: Dapg, n: nat)
    ensures DemoBranch(a) ==> Ticks(a, n).iterCount == a.iterCount + n
    ensures Ticks(a, n).(iterCount := a.iterCount) == a
  {
    if n > 0 {
      TicksCount(a, n - 1);
    }
  }

  /** Starting from a fresh agent in the demonstration branch, the update
      number `n` (counted from 0) gives demo samples `lam_0 * lam_1^n`. */
  lemma DecaySchedule(a: Dapg, n: nat)
    requires a.iterCount == 0 && DemoBranch(a)
    ensures PseudoAdvantage(Ticks(a, n)) == a.lam0 * Pow(a.lam1, n)
  {
    TicksCount(a, n);
    assert Ticks(a, n).lam0 == a.lam0 && Ticks(a, n).lam1 == a.lam1;
  }

  /** Two successive demonstration updates with `lam_0 = 1`, `lam_1 = 0.95`
      from a fresh agent use pseudo-advantages 1.0 and then 0.95. */
  lemma DecayTwoCalls(demos: seq<Path>, w: real)
    ensures PseudoAdvantage(Default(Some(demos), w)) == 1.0
    ensures PseudoAdvantage(Tick(Default(Some(demos), w))) == 0.95
  {
    var a := Default(Some(demos), w);
    assert DemoBranch(a);
    assert Tick(a).iterCount == 1;
  }
}

=== FILE: assembly.dfy ===
/** Batch assembly with demonstrations: the first block of
    `DAPG.train_from_paths`, up to and including `sample_coef`. */
module Assembly {
  import opened Wrappers
  import opened RealSeq
  import opened Batches
  import opened Advantages
  import opened Agent

  /** What assembly hands to the optimiser: the sampled batch (advantages
      normalised), the combined batch the DAPG gradient is taken on, the
      demonstration pseudo-advantages before the global weight, and the agent
      with its counter advanced. */
  datatype Assembled = Assembled(sampled: Batch, combined: Batch, demoAdvantages: seq<real>, agent: Dapg)

  /** The assembly raises nothing: there is at least one sampled path and, in
      the demonstration branch, a non-empty demo pool whose rows are wide
      enough for both index lists. */
  predicate Assembles(agent: Dapg, paths: seq<Path>)
  {
    && |paths| > 0
    && (DemoBranch(agent) ==> |agent.demoPaths.value| > 0 && DemosCover(agent.demoPaths.value))
  }

  /** The sampled batch (lines 64-67): the concatenated observations and
      actions, and the concatenated advantages normalised, one per sample,
      centred on zero and in the same order. */
  function SampledBatch(paths: seq<Path>, sqrt: real -> real): (b: Batch)
    requires IsSqrt(sqrt)
    ensures b.observations == Concatenate(paths).observations
    ensures b.actions == Concatenate(paths).actions
    ensures |b.advantages| == |Concatenate(paths).advantages| == TotalLength(AdvantagesOf(paths))
    ensures |b.advantages| > 0 ==> Sum(b.advantages) == 0.0
    ensures forall i, j :: 0 <= i < |b.advantages| && 0 <= j < |b.advantages| ==>
      (Concatenate(paths).advantages[i] < Concatenate(paths).advantages[j] <==> b.advantages[i] < b.advantages[j])
  {
    var raw := Concatenate(paths);
    NormalizedSample(raw.advantages, sqrt);
    raw.(advantages := Normalize(raw.advantages, sqrt))
  }

  /** The normalised advantages are centred and keep the order of the raw ones. */
  lemma NormalizedSample(raw: seq<real>, sqrt: real -> real)
    requires IsSqrt(sqrt)
    ensures |raw| > 0 ==> Sum(Normalize(raw, sqrt)) == 0.0
    ensures forall i, j :: 0 <= i < |raw| && 0 <= j < |raw| ==>
      (raw[i] < raw[j] <==> Normalize(raw, sqrt)[i] < Normalize(raw, sqrt)[j])
  {
    if |raw| > 0 {
      NormalizeCentres(raw, sqrt);
    }
    forall i, j | 0 <= i < |raw| && 0 <= j < |raw|
      ensures raw[i] < raw[j] <==> Normalize(raw, sqrt)[i] < Normalize(raw, sqrt)[j]
    {
      NormalizeKeepsOrder(raw, sqrt, i, j);
    }
  }

  /** `r` is `head` followed by `tail`, every entry scaled by `w`. */
  predicate WeightedLayout(w: real, head: seq<real>, tail: seq<real>, r: seq<real>)
  {
    && |r| == |head| + |tail|
    && (forall i :: 0 <= i < |head| ==> r[i] == w * head[i])
    && (forall j :: 0 <= j < |tail| ==> r[|head| + j] == w * tail[j])
  }

  /** `w * concatenate([sampled, demo])`: the sampled entries first, each scaled by `w`. */
  function Weighted(w: real, sampled: seq<real>, demo: seq<real>): (r: seq<real>)
    ensures WeightedLayout(w, sampled, demo, r)
  {
    var r := Scale(w, sampled + demo);
    assert forall j :: 0 <= j < |demo| ==> (sampled + demo)[|sampled| + j] == demo[j];
    r
  }

  /** The demonstration branch (lines 70-77): project the demo rows, give
      every demo sample the current pseudo-advantage, bump the counter and
      append the demo data after the sampled data under the global weight. */
  function Blend(agent: Dapg, sampled: Batch, sqrt: real -> real): (a: Assembled)
    requires IsSqrt(sqrt)
    requires DemoBranch(agent) && DemosCover(agent.demoPaths.value)
    ensures a.sampled == sampled && a.agent == Tick(agent)
  {
    var demos := agent.demoPaths.value;
    var demoObs := DemoObservations(demos);
    var demoAct := DemoActions(demos);
    var demoAdv := Constant(|demoObs|, PseudoAdvantage(agent));
    var rescaled := Rescale(sampled.advantages, sqrt);
    var combined := Batch(
      sampled.observations + demoObs,
      sampled.actions + demoAct,
      Weighted(agent.advWeight, rescaled, demoAdv));
    Assembled(sampled, combined, demoAdv, Tick(agent))
  }

  /** Lines 61-84 of the update. */
  function Assemble(agent: Dapg, paths: seq<Path>, sqrt: real -> real): (r: Result<Assembled>)
    requires IsSqrt(sqrt)
    ensures r.Success? <==> Assembles(agent, paths)
    ensures |paths| == 0 ==> r == Failure(EmptyConcatenation)
    ensures |paths| > 0 && DemoBranch(agent) && |agent.demoPaths.value| == 0 ==> r == Failure(EmptyConcatenation)
    ensures |paths| > 0 && DemoBranch(agent) && !DemosCover(agent.demoPaths.value) ==> r == Failure(IndexOutOfRange)
    ensures r.Success? ==> r.value.sampled == SampledBatch(paths, sqrt) && r.value.agent == Tick(agent)
    ensures r.Success? && !DemoBranch(agent) ==> r.value.combined == r.value.sampled && r.value.demoAdvantages == []
    ensures r.Success? && DemoBranch(agent) ==> r.value == Blend(agent, SampledBatch(paths, sqrt), sqrt)
  {
    if |paths| == 0 then Failure(EmptyConcatenation)
    else
      var sampled := SampledBatch(paths, sqrt);
      if !DemoBranch(agent) then Success(Assembled(sampled, sampled, [], agent))
      else
        var demos := agent.demoPaths.value;
        if |demos| == 0 then Failure(EmptyConcatenation)
        else if !DemosCover(demos) then Failure(IndexOutOfRange)
        else Success(Blend(agent, sampled, sqrt))
  }

  /** `sample_coef`: the combined batch size over the sampled batch size. */
  function SampleCoefficient(sampled: Batch, combined: Batch): (coef: real)
    requires |sampled.advantages| > 0
    ensures coef * (|sampled.advantages| as real) == |combined.advantages| as real
  {
    (|combined.advantages| as real) / (|sampled.advantages| as real)
  }

  // ---------------------------------------------------------------------
  // Lemmas

  /** Without demonstrations (no pool, or `lam_0 <= 0`) the update is vanilla
      NPG: the combined batch is the sampled batch, `sample_coef` is 1 and the
      counter does not move. */
  lemma VanillaWithoutDemos(agent: Dapg, paths: seq<Path>, sqrt: real -> real)
    requires IsSqrt(sqrt)
    requires !DemoBranch(agent) && |paths| > 0
    ensures Assemble(agent, paths, sqrt).Success?
    ensures Assemble(agent, paths, sqrt).value.combined == SampledBatch(paths, sqrt)
    ensures Assemble(agent, paths, sqrt).value.agent.iterCount == agent.iterCount
    ensures |SampledBatch(paths, sqrt).advantages| > 0 ==>
      SampleCoefficient(Assemble(agent, paths, sqrt).value.sampled, Assemble(agent, paths, sqrt).value.combined) == 1.0
  {
    var a := Assemble(agent, paths, sqrt).value;
    if |a.sampled.advantages| > 0 {
      var n := |a.sampled.advantages| as real;
      assert a.combined == a.sampled;
      assert n / n == 1.0;
    }
  }

  /** With demonstrations the combined batch holds the `N` sampled rows
      first and the `D` projected demo rows after them, and `sample_coef` is
      `(N + D) / N`, never below 1. */
  lemma CombinedLayout(agent: Dapg, paths: seq<Path>, sqrt: real -> real)
    requires IsSqrt(sqrt)
    requires DemoBranch(agent) && Assembles(agent, paths)
    ensures var a := Assemble(agent, paths, sqrt).value;
      var n, d := |a.sampled.observations|, |DemoObservations(agent.demoPaths.value)|;
      && |a.combined.observations| == n + d
      && a.combined.observations[..n] == a.sampled.observations
      && a.combined.observations[n..] == DemoObservations(agent.demoPaths.value)
      && (forall j :: n <= j < n + d ==> |a.combined.observations[j]| == |ObsIndexes|)
      && (|a.sampled.advantages| > 0 ==>
            SampleCoefficient(a.sampled, a.combined) == ((|a.sampled.advantages| + d) as real) / (|a.sampled.advantages| as real)
            && 1.0 <= SampleCoefficient(a.sampled, a.combined))
  {
    var a := Assemble(agent, paths, sqrt).value;
    var demos := agent.demoPaths.value;
    var n := |a.sampled.observations|;
    DemoRows(demos);
    IndexLists();
    forall j | n <= j < |a.combined.observations|
      ensures |a.combined.observations[j]| == |ObsIndexes|
    {
      assert a.combined.observations[j] == DemoObservations(demos)[j - n];
    }
    if |a.sampled.advantages| > 0 {
      var m := |a.sampled.advantages| as real;
      QuotientAtLeast(|a.combined.advantages| as real, m, 1.0);
    }
  }

  /** `sample_coef` is exactly 1 without demonstrations and at least 1 with them. */
  lemma SampleCoefficientBounds(agent: Dapg, paths: seq<Path>, sqrt: real -> real)
    requires IsSqrt(sqrt)
    requires Assembles(agent, paths)
    requires |Assemble(agent, paths, sqrt).value.sampled.advantages| > 0
    ensures !DemoBranch(agent) ==> SampleCoefficient(Assemble(agent, paths, sqrt).value.sampled, Assemble(agent, paths, sqrt).value.combined) == 1.0
    ensures DemoBranch(agent) ==> 1.0 <= SampleCoefficient(Assemble(agent, paths, sqrt).value.sampled, Assemble(agent, paths, sqrt).value.combined)
  {
    if DemoBranch(agent) {
      CombinedLayout(agent, paths, sqrt);
    } else {
      VanillaWithoutDemos(agent, paths, sqrt);
    }
  }

  /** The demonstration branch's combined batch: sampled observations and
      actions first, then the projected demo rows; every demo sample carries
      `lam_0 * lam_1^t` for the pre-call counter `t`; the advantages are the
      rescaled sampled ones followed by the demo ones, all under the global
      weight. */
  lemma DemoBranchContents(agent: Dapg, sampled: Batch, sqrt: real -> real)
    requires IsSqrt(sqrt)
    requires DemoBranch(agent) && DemosCover(agent.demoPaths.value)
    ensures
      var a, demos := Blend(agent, sampled, sqrt), agent.demoPaths.value;
      && a.combined.observations == sampled.observations + DemoObservations(demos)
      && a.combined.actions == sampled.actions + DemoActions(demos)
      && |a.demoAdvantages| == |DemoObservations(demos)|
      && (forall j :: 0 <= j < |a.demoAdvantages| ==> a.demoAdvantages[j] == agent.lam0 * Pow(agent.lam1, agent.iterCount))
      && WeightedLayout(agent.advWeight, Rescale(sampled.advantages, sqrt), a.demoAdvantages, a.combined.advantages)
  {
    BlendParts(agent, sampled, sqrt);
  }

  /** The pieces `Blend` is built from, named one by one. */
  lemma BlendParts(agent: Dapg, sampled: Batch, sqrt: real -> real)
    requires IsSqrt(sqrt)
    requires DemoBranch(agent) && DemosCover(agent.demoPaths.value)
    ensures var a, demos := Blend(agent, sampled, sqrt), agent.demoPaths.value;
      && a.demoAdvantages == Constant(|DemoObservations(demos)|, PseudoAdvantage(agent))
      && a.combined.observations == sampled.observations + DemoObservations(demos)
      && a.combined.actions == sampled.actions + DemoActions(demos)
      && a.combined.advantages == Weighted(agent.advWeight, Rescale(sampled.advantages, sqrt), a.demoAdvantages)
  {
  }

  /** Two successive demonstration updates from a fresh default agent give
      every demo sample the pseudo-advantage 1.0, then 0.95. */
  lemma DecayAcrossUpdates(demos: seq<Path>, w: real, p1: seq<Path>, p2: seq<Path>, sqrt: real -> real)
    requires IsSqrt(sqrt)
    requires Assembles(Default(Some(demos), w), p1) && |p2| > 0
    ensures var r1 := Assemble(Default(Some(demos), w), p1, sqrt);
      var r2 := Assemble(r1.value.agent, p2, sqrt);
      && r2.Success?
      && (forall j :: 0 <= j < |r1.value.demoAdvantages| ==> r1.value.demoAdvantages[j] == 1.0)
      && (forall j :: 0 <= j < |r2.value.demoAdvantages| ==> r2.value.demoAdvantages[j] == 0.95)
      && r2.value.agent.iterCount == 2
  {
    DecayTwoCalls(demos, w);
  }
}

=== FILE: batches.dfy ===
/** Trajectories, flattened batches and the demonstration column projection
    of `DAPG.train_from_paths`. */
module Batches {

  /** One row of a 2-D numpy array: an observation or an action vector. */
  type Row = seq<real>

  /** One rollout ("path"): parallel per-step observations, actions, rewards
      and advantage estimates. */
  datatype Path = Path(
    observations: seq<Row>,
    actions: seq<Row>,
    rewards: seq<real>,
    advantages: seq<real>)

  /** A flattened view across several paths. */
  datatype Batch = Batch(observations: seq<Row>, actions: seq<Row>, advantages: seq<real>)

  /** Row-wise concatenation of two batches (np.concatenate along axis 0, first batch first). */
  function Append(a: Batch, b: Batch): (r: Batch)
  {
    Batch(a.observations + b.observations, a.actions + b.actions, a.advantages + b.advantages)
  }

  /** np.concatenate of a list of arrays along axis 0. */
  function Flatten<T>(xss: seq<seq<T>>): (r: seq<T>)
  {
    if |xss| == 0 then [] else xss[0] + Flatten(xss[1..])
  }

  /** The summed length of all pieces. */
  function TotalLength<T>(xss: seq<seq<T>>): (n: nat)
  {
    if |xss| == 0 then 0 else |xss[0]| + TotalLength(xss[1..])
  }

  function ObservationsOf(paths: seq<Path>): (r: seq<seq<Row>>)
    ensures |r| == |paths|
  {
    seq(|paths|, k requires 0 <= k < |paths| => paths[k].observations)
  }

  function ActionsOf(paths: seq<Path>): (r: seq<seq<Row>>)
    ensures |r| == |paths|
  {
    seq(|paths|, k requires 0 <= k < |paths| => paths[k].actions)
  }

  function AdvantagesOf(paths: seq<Path>): (r: seq<seq<real>>)
    ensures |r| == |paths|
  {
    seq(|paths|, k requires 0 <= k < |paths| => paths[k].advantages)
  }

  /** The sampled batch: observations, actions and advantages of all paths,
      each concatenated in path order. */
  function Concatenate(paths: seq<Path>): (b: Batch)
    ensures |b.observations| == TotalLength(ObservationsOf(paths))
    ensures |b.actions| == TotalLength(ActionsOf(paths))
    ensures |b.advantages| == TotalLength(AdvantagesOf(paths))
  {
    FlattenLength(ObservationsOf(paths));
    FlattenLength(ActionsOf(paths));
    FlattenLength(AdvantagesOf(paths));
    Batch(Flatten(ObservationsOf(paths)), Flatten(ActionsOf(paths)), Flatten(AdvantagesOf(paths)))
  }

  /** Column indices of the demonstration observations the policy sees. */
  const ObsIndexes: seq<nat> :=
    [0, 1, 2, 3, 4, 5, 9, 10, 13, 14, 17, 18, 22, 23, 25, 26, 28, 29, 30, 31, 32, 33, 34, 35, 36, 37, 38]

  /** Column indices of the demonstration actions the policy emits. */
  const ActIndexes: seq<nat> :=
    [0, 1, 2, 3, 4, 5, 9, 10, 13, 14, 17, 18, 22, 23, 25, 26, 28, 29]

  /** Every index of `idx` addresses a column of `row`. */
  predicate Covers(row: Row, idx: seq<nat>)
  {
    forall i :: 0 <= i < |idx| ==> idx[i] < |row|
  }

  /** `row[idx]`: numpy fancy indexing of one row by an index list. */
  function Project(row: Row, idx: seq<nat>): (r: Row)
    requires Covers(row, idx)
    ensures |r| == |idx|
  {
    seq(|idx|, i requires 0 <= i < |idx| => row[idx[i]])
  }

  predicate AllCover(rows: seq<Row>, idx: seq<nat>)
  {
    forall j :: 0 <= j < |rows| ==> Covers(rows[j], idx)
  }

  /** `rows[:, idx]`: every row projected onto the same index list. */
  function ProjectRows(rows: seq<Row>, idx: seq<nat>): (r: seq<Row>)
    requires AllCover(rows, idx)
    ensures |r| == |rows|
  {
    seq(|rows|, j requires 0 <= j < |rows| => Project(rows[j], idx))
  }

  /** Projecting every piece and then concatenating, as the source does per demo path. */
  function ProjectEach(xss: seq<seq<Row>>, idx: seq<nat>): seq<Row>
    requires forall k :: 0 <= k < |xss| ==> AllCover(xss[k], idx)
  {
    if |xss| == 0 then [] else ProjectRows(xss[0], idx) + ProjectEach(xss[1..], idx)
  }

  /** Every demonstration row is wide enough for the index lists. */
  predicate DemosCover(demos: seq<Path>)
  {
    forall k :: 0 <= k < |demos| ==>
      AllCover(demos[k].observations, ObsIndexes) && AllCover(demos[k].actions, ActIndexes)
  }

  /** `np.concatenate([p["observations"][:, obs_indexes] for p in demos])`. */
  function DemoObservations(demos: seq<Path>): seq<Row>
    requires DemosCover(demos)
  {
    ProjectEach(ObservationsOf(demos), ObsIndexes)
  }

  /** `np.concatenate([p["actions"][:, act_indexes] for p in demos])`. */
  function DemoActions(demos: seq<Path>): seq<Row>
    requires DemosCover(demos)
  {
    ProjectEach(ActionsOf(demos), ActIndexes)
  }

  // ---------------------------------------------------------------------
  // Lemmas

  lemma {:induction false} FlattenLength<T>(xss: seq<seq<T>>)
    ensures |Flatten(xss)| == TotalLength(xss)
  {
    if |xss| > 0 {
      FlattenLength(xss[1..]);
    }
  }

  /** Flattening distributes over concatenation of the piece lists. */
  lemma {:induction false} FlattenAppend<T>(a: seq<seq<T>>, b: seq<seq<T>>)
    ensures Flatten(a + b) == Flatten(a) + Flatten(b)
  {
    if |a| == 0 {
      assert a + b == b;
    } else {
      assert (a + b)[1..] == a[1..] + b;
      FlattenAppend(a[1..], b);
    }
  }

  /** Concatenating the paths of `p + q` is concatenating `p`'s batch and then `q`'s:
      the sampled batch keeps every path's rows, in path order. */
  lemma ConcatenateAppend(p: seq<Path>, q: seq<Path>)
    ensures Concatenate(p + q) == Append(Concatenate(p), Concatenate(q))
  {
    assert ObservationsOf(p + q) == ObservationsOf(p) + ObservationsOf(q);
    assert ActionsOf(p + q) == ActionsOf(p) + ActionsOf(q);
    assert AdvantagesOf(p + q) == AdvantagesOf(p) + AdvantagesOf(q);
    FlattenAppend(ObservationsOf(p), ObservationsOf(q));
    FlattenAppend(ActionsOf(p), ActionsOf(q));
    FlattenAppend(AdvantagesOf(p), AdvantagesOf(q));
  }

  /** A single path concatenates to its own arrays. */
  lemma ConcatenateSingle(p: Path)
    ensures Concatenate([p]) == Batch(p.observations, p.actions, p.advantages)
  {
    assert ObservationsOf([p]) == [p.observations];
    assert ActionsOf([p]) == [p.actions];
    assert AdvantagesOf([p]) == [p.advantages];
    assert Flatten([p.observations]) == p.observations + Flatten<Row>([]);
    assert Flatten([p.actions]) == p.actions + Flatten<Row>([]);
    assert Flatten([p.advantages]) == p.advantages + Flatten<real>([]);
  }

  /** The two index lists: 27 and 18 strictly increasing columns, the action
      list being the first 18 observation columns. */
  lemma IndexLists()
    ensures |ObsIndexes| == 27 && |ActIndexes| == 18
    ensures ActIndexes == ObsIndexes[..18]
    ensures forall i, j :: 0 <= i < j < |ObsIndexes| ==> ObsIndexes[i] < ObsIndexes[j]
    ensures ObsIndexes[26] == 38 && ActIndexes[17] == 29
  {
  }

  /** A row can be projected on the observation columns exactly when it has at least 39 columns. */
  lemma CoversObservationRow(row: Row)
    ensures Covers(row, ObsIndexes) <==> 39 <= |row|
  {
    IndexLists();
  }

  /** A row can be projected on the action columns exactly when it has at least 30 columns. */
  lemma CoversActionRow(row: Row)
    ensures Covers(row, ActIndexes) <==> 30 <= |row|
  {
    IndexLists();
  }

  lemma {:induction false} AllCoverFlatten(xss: seq<seq<Row>>, idx: seq<nat>)
    requires forall k :: 0 <= k < |xss| ==> AllCover(xss[k], idx)
    ensures AllCover(Flatten(xss), idx)
  {
    if |xss| > 0 {
      AllCoverFlatten(xss[1..], idx);
      var a, b := xss[0], Flatten(xss[1..]);
      forall j | 0 <= j < |a + b|
        ensures Covers((a + b)[j], idx)
      {
        if j < |a| {
          assert (a + b)[j] == a[j];
        } else {
          assert (a + b)[j] == b[j - |a|];
        }
      }
    }
  }

  /** Projecting path by path and then concatenating equals concatenating
      first and projecting the whole array. */
  lemma {:induction false} ProjectEachIsProjectFlatten(xss: seq<seq<Row>>, idx: seq<nat>)
    requires forall k :: 0 <= k < |xss| ==> AllCover(xss[k], idx)
    ensures AllCover(Flatten(xss), idx)
    ensures ProjectEach(xss, idx) == ProjectRows(Flatten(xss), idx)
  {
    AllCoverFlatten(xss, idx);
    if |xss| > 0 {
      ProjectEachIsProjectFlatten(xss[1..], idx);
      var a, b := xss[0], Flatten(xss[1..]);
      assert ProjectRows(a + b, idx) == ProjectRows(a, idx) + ProjectRows(b, idx);
    }
  }

  /** Each demonstration observation row is the matching row of the
      concatenated demonstration array restricted to the 27 observation
      columns, and likewise each action row to the 18 action columns. */
  lemma DemoRows(demos: seq<Path>)
    requires DemosCover(demos)
    ensures AllCover(Flatten(ObservationsOf(demos)), ObsIndexes)
    ensures AllCover(Flatten(ActionsOf(demos)), ActIndexes)
    ensures |DemoObservations(demos)| == |Flatten(ObservationsOf(demos))|
    ensures |DemoActions(demos)| == |Flatten(ActionsOf(demos))|
    ensures forall j :: 0 <= j < |DemoObservations(demos)| ==>
      |DemoObservations(demos)[j]| == 27 &&
      forall i :: 0 <= i < 27 ==>
        DemoObservations(demos)[j][i] == Flatten(ObservationsOf(demos))[j][ObsIndexes[i]]
    ensures forall j :: 0 <= j < |DemoActions(demos)| ==>
      |DemoActions(demos)[j]| == 18 &&
      forall i :: 0 <= i < 18 ==>
        DemoActions(demos)[j][i] == Flatten(ActionsOf(demos))[j][ActIndexes[i]]
  {
    IndexLists();
    ProjectEachIsProjectFlatten(ObservationsOf(demos), ObsIndexes);
    ProjectEachIsProjectFlatten(ActionsOf(demos), ActIndexes);
  }
}

=== FILE: linesearch.dfy ===
/** The backtracking line search of `DAPG.train_from_paths` (lines
    163-186): up to ten trials at `alpha = 2^-k`, the acceptance test
    `ratio > 0.1 and actual_improve > 0`, and the forced `alpha = 0` when the
    tenth trial is rejected. */
module LineSearch {
  import opened RealSeq

  /** Everything the search reads: the parameters before the update, the full
      step, its multiplier `lm`, the slope `loss_grad . npg_grad`, the
      surrogate before the update, and the surrogate as a function of the
      trial parameters (CPI_surrogate on the sampled batch). */
  datatype Search = Search(
    current: seq<real>,
    fullStep: seq<real>,
    lm: real,
    slope: real,
    surrBefore: real,
    surrogate: seq<real> -> real)

  /** The step has the parameters' dimension, `lm` is positive, and
      `surr_before` is the surrogate at the parameters before the update. */
  predicate Valid(s: Search)
  {
    && |s.current| == |s.fullStep|
    && 0.0 < s.lm
    && s.surrBefore == s.surrogate(s.current)
  }

  /** The committed step fraction and how many trials were evaluated. */
  datatype Outcome = Outcome(alpha: real, trials: nat)

  /** Number of trials of the `for k in range(10)` loop. */
  const MaxTrials: nat := 10

  /** `ratio > 0.1 and actual_improve > 0` with `ratio = actual / expected`.
      With `expected == 0` the floating-point ratio is `+inf` for a positive
      `actual`, so only the sign of `actual` decides. */
  predicate Accepts(actual: real, expected: real)
  {
    && 0.0 < actual
    && (expected == 0.0 || actual / expected > 0.1)
  }

  /** The parameters tried at fraction `alpha`, `curr_params + alpha * full_step`;
      the same expression is the final write once `alpha` is settled. */
  function TrialParams(s: Search, alpha: real): (p: seq<real>)
    requires Valid(s)
    ensures |p| == |s.current|
    ensures alpha == 0.0 ==> p == s.current
  {
    AddScaledZero(s.current, s.fullStep);
    AddScaled(s.current, alpha, s.fullStep)
  }

  /** `actual_improve = surr_after - surr_before`: positive exactly when the
      trial raises the surrogate, and zero for the null step. */
  function ActualImprove(s: Search, alpha: real): (d: real)
    requires Valid(s)
    ensures 0.0 < d <==> s.surrBefore < s.surrogate(TrialParams(s, alpha))
    ensures alpha == 0.0 ==> d == 0.0
  {
    s.surrogate(TrialParams(s, alpha)) - s.surrBefore
  }

  /** `expected_improve = neggdotstepdir / lm * alpha`, the first-order
      prediction of the gain along the step: its product with `lm` is
      `slope * alpha`, and for a positive fraction it has the sign of the
      slope. */
  function ExpectedImprove(s: Search, alpha: real): (e: real)
    requires Valid(s)
    ensures e * s.lm == s.slope * alpha
    ensures 0.0 < alpha ==> (e < 0.0 <==> s.slope < 0.0) && (0.0 < e <==> 0.0 < s.slope)
  {
    LinearPrediction(s.slope, s.lm, alpha);
    s.slope / s.lm * alpha
  }

  /** Trial `k` (at fraction `2^-k`) passes the acceptance test. */
  predicate AcceptedAt(s: Search, k: nat)
    requires Valid(s)
  {
    Accepts(ActualImprove(s, HalfPow(k)), ExpectedImprove(s, HalfPow(k)))
  }

  /** The loop from trial `k` on, with `alpha` the fraction it has reached. */
  function Backtrack(s: Search, k: nat, alpha: real): (r: Outcome)
    requires Valid(s)
    requires k < MaxTrials && alpha == HalfPow(k)
    ensures k < r.trials <= MaxTrials
    ensures r.alpha == 0.0 <==> forall j :: k <= j < MaxTrials ==> !AcceptedAt(s, j)
    ensures r.alpha == 0.0 ==> r.trials == MaxTrials
    ensures r.alpha != 0.0 ==>
      && r.alpha == HalfPow(r.trials - 1)
      && AcceptedAt(s, r.trials - 1)
      && forall j :: k <= j < r.trials - 1 ==> !AcceptedAt(s, j)
    decreases MaxTrials - k
  {
    HalfPowBounds(k);
    if Accepts(ActualImprove(s, alpha), ExpectedImprove(s, alpha)) then
      assert AcceptedAt(s, k);
      Outcome(alpha, k + 1)                        // break
    else
      var halved := 0.5 * alpha;
      if k == MaxTrials - 1 then Outcome(0.0, MaxTrials)   // `if k == 9: alpha = 0`
      else Backtrack(s, k + 1, halved)
  }

  /** The whole search, starting at `alpha = 1`. */
  function Run(s: Search): (r: Outcome)
    requires Valid(s)
    ensures r.trials <= MaxTrials
    ensures r.alpha == 0.0 <==> forall j :: 0 <= j < MaxTrials ==> !AcceptedAt(s, j)
    ensures r.alpha != 0.0 ==>
      exists k :: 0 <= k < MaxTrials && r.alpha == HalfPow(k) && AcceptedAt(s, k) &&
        forall j :: 0 <= j < k ==> !AcceptedAt(s, j)
  {
    var r := Backtrack(s, 0, 1.0);
    assert r.alpha != 0.0 ==> r.alpha == HalfPow(r.trials - 1);
    r
  }

  // ---------------------------------------------------------------------
  // Lemmas

  /** With a positive expected improvement the test is `actual > 0.1 * expected`;
      with a negative one no trial passes; with a zero one any gain passes. */
  lemma AcceptanceThreshold(actual: real, expected: real)
    ensures 0.0 < expected ==> (Accepts(actual, expected) <==> 0.1 * expected < actual)
    ensures expected < 0.0 ==> !Accepts(actual, expected)
    ensures expected == 0.0 ==> (Accepts(actual, expected) <==> 0.0 < actual)
  {
    if 0.0 < expected {
      RatioAbove(actual, expected);
    } else if expected < 0.0 {
      if 0.0 < actual {
        assert actual / expected < 0.0;
      }
    }
  }

  lemma RatioAbove(actual: real, expected: real)
    requires 0.0 < expected
    ensures actual / expected > 0.1 <==> 0.1 * expected < actual
  {
    var q := actual / expected;
    assert q * expected == actual;
    assert actual - 0.1 * expected == (q - 0.1) * expected;
    PositiveFactor(q - 0.1, expected);
  }

  lemma PositiveFactor(a: real, b: real)
    requires 0.0 < b
    ensures 0.0 < a <==> 0.0 < a * b
  {
    if a <= 0.0 {
      assert a * b == -((-a) * b);
    }
  }

  /** If the first trial passes, there is no backtracking: the full step is committed. */
  lemma FirstTrialAccepted(s: Search)
    requires Valid(s) && AcceptedAt(s, 0)
    ensures Run(s) == Outcome(1.0, 1)
    ensures forall i :: 0 <= i < |s.current| ==> TrialParams(s, Run(s).alpha)[i] == s.current[i] + s.fullStep[i]
  {
  }

  /** If no trial passes, `alpha` is forced to 0 and the update is a no-op. */
  lemma NoTrialAccepted(s: Search)
    requires Valid(s)
    requires forall j :: 0 <= j < MaxTrials ==> !AcceptedAt(s, j)
    ensures Run(s) == Outcome(0.0, MaxTrials)
    ensures TrialParams(s, Run(s).alpha) == s.current
  {
  }

  /** The final write either keeps `curr_params` (no trial passed) or repeats
      exactly the parameters of the first trial that passed. */
  lemma CommitIsAcceptedTrial(s: Search)
    requires Valid(s)
    ensures
      || (Run(s).alpha == 0.0 && TrialParams(s, Run(s).alpha) == s.current)
      || exists k :: 0 <= k < MaxTrials && AcceptedAt(s, k) && (forall j :: 0 <= j < k ==> !AcceptedAt(s, j))
           && TrialParams(s, Run(s).alpha) == TrialParams(s, HalfPow(k))
  {
  }

  /** The `break` comes before the `k == 9` reset: a tenth trial that passes
      keeps `alpha = 2^-9` rather than 0. */
  lemma LastTrialAccepted(s: Search)
    requires Valid(s)
    requires forall j :: 0 <= j < MaxTrials - 1 ==> !AcceptedAt(s, j)
    requires AcceptedAt(s, MaxTrials - 1)
    ensures Run(s) == Outcome(1.0 / 512.0, MaxTrials)
  {
    var r := Run(s);
    HalfPowBounds(r.trials - 1);
    assert HalfPow(9) == 1.0 / 512.0;
  }

  /** A step that the linearised model expects to lose (negative slope) is never taken. */
  lemma DescentRejected(s: Search)
    requires Valid(s) && s.slope < 0.0
    ensures Run(s).alpha == 0.0
  {
    forall j | 0 <= j < MaxTrials
      ensures !AcceptedAt(s, j)
    {
      ExpectedLoss(s, j);
      RejectedOnExpectedLoss(s, j);
    }
  }

  /** With a negative slope every trial expects a loss. */
  lemma ExpectedLoss(s: Search, k: nat)
    requires Valid(s) && s.slope < 0.0
    ensures ExpectedImprove(s, HalfPow(k)) < 0.0
  {
    HalfPowBounds(k);
    NegativeQuotient(s.slope, s.lm);
    NegativeScaled(s.slope / s.lm, HalfPow(k));
  }

  /** A trial that expects a loss never passes. */
  lemma RejectedOnExpectedLoss(s: Search, k: nat)
    requires Valid(s) && ExpectedImprove(s, HalfPow(k)) < 0.0
    ensures !AcceptedAt(s, k)
  {
    AcceptanceThreshold(ActualImprove(s, HalfPow(k)), ExpectedImprove(s, HalfPow(k)));
  }

  /** `slope / lm * alpha` times `lm` is `slope * alpha`, and for a positive
      `alpha` it has the sign of `slope`. */
  lemma LinearPrediction(slope: real, lm: real, alpha: real)
    requires 0.0 < lm
    ensures slope / lm * alpha * lm == slope * alpha
    ensures 0.0 < alpha ==>
      (slope / lm * alpha < 0.0 <==> slope < 0.0) && (0.0 < slope / lm * alpha <==> 0.0 < slope)
  {
    var q := slope / lm;
    assert q * lm == slope;
    assert q * alpha * lm == q * lm * alpha;
    if 0.0 < alpha {
      PositiveFactor(q, lm);
      PositiveFactor(-q, lm);
      assert (-q) * lm == -(q * lm);
      PositiveFactor(q, alpha);
      PositiveFactor(-q, alpha);
      assert (-q) * alpha == -(q * alpha);
    }
  }

  lemma NegativeQuotient(a: real, b: real)
    requires a < 0.0 < b
    ensures a / b < 0.0
  {
  }

  lemma NegativeScaled(a: real, x: real)
    requires a < 0.0 < x
    ensures a * x < 0.0
  {
    PositiveFactor(-a, x);
    assert a * x == -((-a) * x);
  }
}

=== FILE: reals.dfy ===
/** Exact real arithmetic over sequences: the numpy reductions and vector
    operations `train_from_paths` uses, with square roots left abstract. */
module RealSeq {

  /** Sum of the entries; `sum([])` is 0 as in Python. */
  function Sum(s: seq<real>): (r: real)
  {
    if |s| == 0 then 0.0 else s[0] + Sum(s[1..])
  }

  /** np.mean of a non-empty vector. */
  function Mean(s: seq<real>): (m: real)
    requires |s| > 0
  {
    Sum(s) / (|s| as real)
  }

  /** np.amin of a non-empty vector. */
  function Min(s: seq<real>): (r: real)
    requires |s| > 0
    ensures forall i :: 0 <= i < |s| ==> r <= s[i]
  {
    if |s| == 1 then s[0]
    else
      var m := Min(s[1..]);
      if s[0] <= m then s[0] else m
  }

  /** np.amax of a non-empty vector. */
  function Max(s: seq<real>): (r: real)
    requires |s| > 0
    ensures forall i :: 0 <= i < |s| ==> s[i] <= r
  {
    if |s| == 1 then s[0]
    else
      var m := Max(s[1..]);
      if m <= s[0] then s[0] else m
  }

  /** Squared deviations of every entry from `m`. */
  function SquaredDeviations(s: seq<real>, m: real): (r: seq<real>)
    ensures |r| == |s|
  {
    seq(|s|, i requires 0 <= i < |s| => (s[i] - m) * (s[i] - m))
  }

  /** Population variance (np.var with ddof = 0). */
  function Variance(s: seq<real>): real
    requires |s| > 0
  {
    Sum(SquaredDeviations(s, Mean(s))) / (|s| as real)
  }

  /** The square-root oracle: a non-negative root of every non-negative real. */
  ghost predicate IsSqrt(sqrt: real -> real)
  {
    forall x :: 0.0 <= x ==> 0.0 <= sqrt(x) && sqrt(x) * sqrt(x) == x
  }

  /** np.std of a non-empty vector: the non-negative root of its variance. */
  function Std(s: seq<real>, sqrt: real -> real): (r: real)
    requires IsSqrt(sqrt)
    requires |s| > 0
    ensures 0.0 <= r && r * r == Variance(s)
  {
    VarianceNonNegative(s);
    sqrt(Variance(s))
  }

  /** `x ** n` for a natural exponent. */
  function Pow(x: real, n: nat): (r: real)
  {
    if n == 0 then 1.0 else x * Pow(x, n - 1)
  }

  /** The line-search step fraction `2^-k`. */
  function HalfPow(k: nat): real
  {
    Pow(0.5, k)
  }

  /** Inner product of two vectors of equal length. */
  function Dot(a: seq<real>, b: seq<real>): (r: real)
    requires |a| == |b|
  {
    if |a| == 0 then 0.0 else a[0] * b[0] + Dot(a[1..], b[1..])
  }

  /** `c * v`, entry by entry. */
  function Scale(c: real, v: seq<real>): (r: seq<real>)
    ensures |r| == |v|
  {
    seq(|v|, i requires 0 <= i < |v| => c * v[i])
  }

  /** `x + a * d`, entry by entry: a point moved a fraction `a` along `d`. */
  function AddScaled(x: seq<real>, a: real, d: seq<real>): (r: seq<real>)
    requires |x| == |d|
    ensures |r| == |x|
  {
    seq(|x|, i requires 0 <= i < |x| => x[i] + a * d[i])
  }

  /** `s - m`, entry by entry. */
  function Shift(s: seq<real>, m: real): (r: seq<real>)
    ensures |r| == |s|
  {
    seq(|s|, i requires 0 <= i < |s| => s[i] - m)
  }

  /** `s / d`, entry by entry. */
  function Divide(s: seq<real>, d: real): (r: seq<real>)
    requires d != 0.0
    ensures |r| == |s|
  {
    seq(|s|, i requires 0 <= i < |s| => s[i] / d)
  }

  /** A vector of `n` copies of `c` (np.ones(n) scaled by c). */
  function Constant(n: nat, c: real): (r: seq<real>)
    ensures |r| == n
    ensures forall i :: 0 <= i < n ==> r[i] == c
  {
    seq(n, _ => c)
  }

  // ---------------------------------------------------------------------
  // Lemmas

  lemma {:induction false} SumNonNegative(s: seq<real>)
    requires forall i :: 0 <= i < |s| ==> 0.0 <= s[i]
    ensures 0.0 <= Sum(s)
  {
    if |s| > 0 {
      SumNonNegative(s[1..]);
    }
  }

  lemma VarianceNonNegative(s: seq<real>)
    requires |s| > 0
    ensures 0.0 <= Variance(s)
  {
    var d := SquaredDeviations(s, Mean(s));
    forall i | 0 <= i < |d|
      ensures 0.0 <= d[i]
    {
      var e := s[i] - Mean(s);
      assert d[i] == e * e;
    }
    SumNonNegative(d);
  }

  /** `k` copies of `m` added together: `k * m` without a product term. */
  function Times(k: nat, m: real): real
  {
    if k == 0 then 0.0 else m + Times(k - 1, m)
  }

  lemma {:induction false} TimesMonotone(k: nat, a: real, b: real)
    requires a <= b
    ensures Times(k, a) <= Times(k, b)
  {
    if k > 0 {
      TimesMonotone(k - 1, a, b);
    }
  }

  lemma {:induction false} TimesIsProduct(k: nat, m: real)
    ensures Times(k, m) == (k as real) * m
  {
    if k > 0 {
      TimesIsProduct(k - 1, m);
      assert (k as real) * m == ((k - 1) as real) * m + m;
    }
  }

  /** The sum of a vector is at least `n` times its minimum. */
  lemma {:induction false} SumAboveMin(s: seq<real>)
    requires |s| > 0
    ensures Times(|s|, Min(s)) <= Sum(s)
  {
    if |s| > 1 {
      var t := s[1..];
      SumAboveMin(t);
      assert t[0] == s[1];
      TimesMonotone(|t|, Min(s), Min(t));
    }
  }

  /** The sum of a vector is at most `n` times its maximum. */
  lemma {:induction false} SumBelowMax(s: seq<real>)
    requires |s| > 0
    ensures Sum(s) <= Times(|s|, Max(s))
  {
    if |s| > 1 {
      var t := s[1..];
      SumBelowMax(t);
      assert t[0] == s[1];
      TimesMonotone(|t|, Max(t), Max(s));
    }
  }

  /** The minimum and the maximum are entries of the vector. */
  lemma {:induction false} ExtremesAreEntries(s: seq<real>)
    requires |s| > 0
    ensures Min(s) in s && Max(s) in s
  {
    if |s| > 1 {
      ExtremesAreEntries(s[1..]);
    }
  }

  lemma QuotientAtLeast(x: real, n: real, lo: real)
    requires 0.0 < n && n * lo <= x
    ensures lo <= x / n
  {
    var q := x / n;
    assert x == n * q;
    assert 0.0 <= n * (q - lo);
  }

  lemma QuotientAtMost(x: real, n: real, hi: real)
    requires 0.0 < n && x <= n * hi
    ensures x / n <= hi
  {
    var q := x / n;
    assert x == n * q;
    assert 0.0 <= n * (hi - q);
  }

  /** The mean of a vector lies between its minimum and its maximum. */
  lemma MeanBetween(s: seq<real>)
    requires |s| > 0
    ensures Min(s) <= Mean(s) <= Max(s)
  {
    var n := |s| as real;
    var lo, hi := Min(s), Max(s);
    SumAboveMin(s);
    SumBelowMax(s);
    TimesIsProduct(|s|, lo);
    TimesIsProduct(|s|, hi);
    QuotientAtLeast(Sum(s), n, lo);
    QuotientAtMost(Sum(s), n, hi);
  }

  /** Shifting every entry by `m` shifts the sum by `n * m`. */
  lemma {:induction false} SumShift(s: seq<real>, m: real)
    ensures Sum(Shift(s, m)) == Sum(s) - Times(|s|, m)
  {
    if |s| > 0 {
      SumShift(s[1..], m);
      assert Shift(s, m)[1..] == Shift(s[1..], m);
    }
  }

  /** Dividing every entry by `d` divides the sum by `d`. */
  lemma {:induction false} SumDivide(s: seq<real>, d: real)
    requires d != 0.0
    ensures Sum(Divide(s, d)) == Sum(s) / d
  {
    if |s| > 0 {
      var q := Divide(s, d);
      SumDivide(s[1..], d);
      assert q[1..] == Divide(s[1..], d);
      assert q[0] == s[0] / d;
      assert Sum(q) == q[0] + Sum(q[1..]);
      QuotientsAdd(s[0], Sum(s[1..]), d);
      assert Sum(s) == s[0] + Sum(s[1..]);
    }
  }

  /** Division by a common non-zero divisor distributes over addition. */
  lemma QuotientsAdd(a: real, b: real, d: real)
    requires d != 0.0
    ensures a / d + b / d == (a + b) / d
  {
  }

  /** Every step fraction `2^-k` is positive and at most 1. */
  lemma {:induction false} HalfPowBounds(k: nat)
    ensures 0.0 < HalfPow(k) <= 1.0
  {
    if k > 0 {
      HalfPowBounds(k - 1);
    }
  }

  /** Moving a zero fraction leaves the point where it is. */
  /** A positive amount scaled by a fraction in (0, 1] stays positive and does not grow. */
  lemma FractionOf(a: real, q: real)
    requires 0.0 < a && 0.0 < q <= 1.0
    ensures 0.0 < a * q <= a
  {
    assert a - a * q == a * (1.0 - q);
    assert 0.0 <= a * (1.0 - q);
  }

  /** Powers of a fraction in (0, 1] stay in (0, 1]. */
  lemma {:induction false} PowUnitInterval(x: real, n: nat)
    requires 0.0 < x <= 1.0
    ensures 0.0 < Pow(x, n) <= 1.0
  {
    if n > 0 {
      PowUnitInterval(x, n - 1);
      FractionOf(x, Pow(x, n - 1));
    }
  }

  /** `a * x^n` lies in (0, a] for a positive `a` and `x` in (0, 1]. */
  lemma DecayedBelow(a: real, x: real, n: nat)
    ensures 0.0 < a && 0.0 < x <= 1.0 ==> 0.0 < a * Pow(x, n) <= a
  {
    if 0.0 < a && 0.0 < x <= 1.0 {
      PowUnitInterval(x, n);
      FractionOf(a, Pow(x, n));
    }
  }

  lemma AddScaledZero(x: seq<real>, d: seq<real>)
    requires |x| == |d|
    ensures AddScaled(x, 0.0, d) == x
  {
  }
}

=== FILE: returnstats.dfy ===
/** Per-path return statistics and the running score of
    `DAPG.train_from_paths`. */
module ReturnStats {
  import opened Wrappers
  import opened RealSeq
  import opened Batches

  /** `base_stats = [mean_return, std_return, min_return, max_return]`. */
  datatype Stats = Stats(mean: real, std: real, min: real, max: real)

  /** `path_returns`: the summed reward of every path, in path order. */
  function PathReturns(paths: seq<Path>): (r: seq<real>)
    ensures |r| == |paths|
  {
    seq(|paths|, k requires 0 <= k < |paths| => Sum(paths[k].rewards))
  }

  /** The statistics of the path returns (population standard deviation). */
  function BaseStats(paths: seq<Path>, sqrt: real -> real): (r: Stats)
    requires IsSqrt(sqrt)
    requires |paths| > 0
    ensures r.mean == Mean(PathReturns(paths))
    ensures r.min <= r.mean <= r.max
    ensures forall k :: 0 <= k < |paths| ==> r.min <= Sum(paths[k].rewards) <= r.max
    ensures r.min in PathReturns(paths) && r.max in PathReturns(paths)
    ensures 0.0 <= r.std && r.std * r.std == Variance(PathReturns(paths))
  {
    var rs := PathReturns(paths);
    MeanBetween(rs);
    ExtremesAreEntries(rs);
    assert forall k :: 0 <= k < |paths| ==> rs[k] == Sum(paths[k].rewards);
    Stats(Mean(rs), Std(rs, sqrt), Min(rs), Max(rs))
  }

  /** The running score after an update whose mean return is `mean`: the mean
      itself on the first update, `0.9 * previous + 0.1 * mean` afterwards. */
  function RunningScore(previous: Option<real>, mean: real): (r: real)
    ensures previous.None? ==> r == mean
    ensures previous.Some? ==> r - mean == 0.9 * (previous.value - mean)
    ensures previous.Some? && previous.value <= mean ==> previous.value <= r <= mean
    ensures previous.Some? && mean <= previous.value ==> mean <= r <= previous.value
  {
    if previous.None? then mean else 0.9 * previous.value + 0.1 * mean
  }

  /** The running score after updates with mean returns `means`, in order,
      from an agent that has none yet. */
  function ScoreAfter(means: seq<real>): (r: Option<real>)
  {
    if |means| == 0 then None
    else Some(RunningScore(ScoreAfter(means[..|means| - 1]), means[|means| - 1]))
  }

  // ---------------------------------------------------------------------
  // Lemmas

  /** Two synthetic one-step paths with rewards 1 and 3 give
      `base_stats == [2, 1, 1, 3]`. */
  lemma TwoPathScenario(o1: Row, a1: Row, o2: Row, a2: Row, sqrt: real -> real)
    requires IsSqrt(sqrt)
    ensures var paths := [Path([o1], [a1], [1.0], [0.0]), Path([o2], [a2], [3.0], [0.0])];
      BaseStats(paths, sqrt) == Stats(2.0, 1.0, 1.0, 3.0)
  {
    var paths := [Path([o1], [a1], [1.0], [0.0]), Path([o2], [a2], [3.0], [0.0])];
    var rs := PathReturns(paths);
    assert Sum([1.0]) == 1.0 && Sum([3.0]) == 3.0;
    assert rs == [1.0, 3.0];
    assert Sum(rs) == 4.0 by {
      assert rs[1..] == [3.0];
    }
    assert Mean(rs) == 2.0;
    var d := SquaredDeviations(rs, 2.0);
    assert d == [1.0, 1.0];
    assert Sum(d) == 2.0 by {
      assert d[1..] == [1.0];
    }
    assert Variance(rs) == 1.0;
    var s := Std(rs, sqrt);
    UnitRoot(s);
    assert Min(rs) == 1.0 by {
      assert rs[1..] == [3.0];
    }
    assert Max(rs) == 3.0 by {
      assert rs[1..] == [3.0];
    }
  }

  lemma UnitRoot(s: real)
    requires 0.0 <= s && s * s == 1.0
    ensures s == 1.0
  {
    assert (s - 1.0) * (s + 1.0) == 0.0;
    ZeroFactor(s - 1.0, s + 1.0);
  }

  lemma ZeroFactor(a: real, b: real)
    requires a * b == 0.0 && 0.0 < b
    ensures a == 0.0
  {
  }

  /** The running score is set on the first update and blended 0.9/0.1 on the second. */
  lemma ScoreFirstTwoUpdates(m1: real, m2: real)
    ensures ScoreAfter([m1]) == Some(m1)
    ensures ScoreAfter([m1, m2]) == Some(0.9 * m1 + 0.1 * m2)
  {
    assert [m1][..0] == [];
    assert [m1, m2][..1] == [m1];
  }

  /** The running score never leaves the range of the mean returns it has seen. */
  lemma {:induction false} ScoreWithinRange(means: seq<real>, lo: real, hi: real)
    requires |means| > 0
    requires forall i :: 0 <= i < |means| ==> lo <= means[i] <= hi
    ensures ScoreAfter(means).Some?
    ensures lo <= ScoreAfter(means).value <= hi
  {
    var init := means[..|means| - 1];
    if |init| > 0 {
      ScoreWithinRange(init, lo, hi);
    }
  }

  /** A constant mean return leaves the running score at that constant. */
  lemma ScoreOfConstant(means: seq<real>, c: real)
    requires |means| > 0
    requires forall i :: 0 <= i < |means| ==> means[i] == c
    ensures ScoreAfter(means) == Some(c)
  {
    ScoreWithinRange(means, c, c);
  }
}

=== FILE: train.dfy ===
/** One DAPG update, `DAPG.train_from_paths`: assembly, return statistics,
    running score, natural-gradient step and line search, committed to the
    policy parameters. */
module Train {
  import opened Wrappers
  import opened RealSeq
  import opened Batches
  import opened Agent
  import opened Assembly
  import opened ReturnStats
  import opened TrustRegion
  import opened LineSearch

  /** The policy's parameter vectors: the current one and the frozen "old" one
      (`frozen`) that importance weights and KL are measured against. */
  datatype Policy = Policy(current: seq<real>, frozen: seq<real>)

  /** The numerical collaborators of one update, left abstract:
      - `sqrt`: the square root behind np.std and `lm`;
      - `vpg`: `flat_vpg`, the flattened surrogate gradient on a batch;
      - `lossGradient`: the flattened autograd gradient of CPI_surrogate on a batch;
      - `naturalGradient`: `cg_solve` against the Fisher operator of the sampled batch, started at its argument;
      - `hvp`: that damped Fisher-vector product;
      - `surrogate`: CPI_surrogate on the sampled batch as a function of the policy parameters. */
  datatype Collaborators = Collaborators(
    sqrt: real -> real,
    vpg: Batch -> seq<real>,
    lossGradient: Batch -> seq<real>,
    naturalGradient: seq<real> -> seq<real>,
    hvp: seq<real> -> seq<real>,
    surrogate: seq<real> -> real)

  /** The collaborators work in a parameter space of dimension `n`. */
  ghost predicate Conforms(c: Collaborators, n: nat)
  {
    && IsSqrt(c.sqrt)
    && (forall v :: |c.naturalGradient(v)| == n)
    && (forall v :: |c.hvp(v)| == n)
    && (forall b :: |c.lossGradient(b)| == n)
  }

  /** What the optimisation part of an update produces: the committed
      policy, step fraction, trial count and `sample_coef`; the division by an
      empty sampled batch; or a non-finite step. */
  datatype Progress =
    | Committed(policy: Policy, alpha: real, trials: nat, sampleCoef: real)
    | EmptySample
    | NonFinite

  /** How an update ends: it returns `base_stats`, raises (with the agent as
      the exception leaves it), or runs into a non-finite step. */
  datatype TrainResult =
    | Done(stats: Stats, agent: Dapg, policy: Policy, alpha: real, trials: nat, sampleCoef: real)
    | Raised(error: Error, agent: Dapg)
    | Diverged(agent: Dapg)

  /** Lines 130-163: `sample_coef`, the DAPG gradient, the natural gradient,
      the trust-region step, the slope `loss_grad . npg_grad` and the
      surrogate before the update, gathered into the line search they set
      up; `None` when the step is not finite. */
  function SearchOf(policy: Policy, sampled: Batch, combined: Batch, c: Collaborators): (s: Option<Search>)
    requires Conforms(c, |policy.current|)
    requires |sampled.advantages| > 0
    ensures s.Some? ==> Valid(s.value) && s.value.current == policy.current
    ensures s.Some? ==> s.value.surrogate == c.surrogate && s.value.surrBefore == c.surrogate(policy.current)
    ensures var npg := c.naturalGradient(Scale(SampleCoefficient(sampled, combined), c.vpg(combined)));
      && (s.None? <==> Dot(npg, c.hvp(npg)) <= 0.0)
      && (s.Some? ==>
            && s.value.slope == Dot(c.lossGradient(combined), npg)
            && s.value.lm * s.value.lm == 0.5 * Dot(npg, c.hvp(npg)) / ReferenceKl
            && forall i :: 0 <= i < |npg| ==> s.value.fullStep[i] * s.value.lm == npg[i])
  {
    var coef := SampleCoefficient(sampled, combined);
    var dapgGrad := Scale(coef, c.vpg(combined));
    var npg := c.naturalGradient(dapgGrad);
    match TrustRegionStep(npg, c.hvp(npg), c.sqrt)
    case None => None
    case Some(step) =>
      Some(Search(policy.current, step.fullStep, step.lm, Dot(c.lossGradient(combined), npg),
                  c.surrogate(policy.current), c.surrogate))
  }

  /** Lines 130-190: the division for `sample_coef`, then the line search set
      up by `SearchOf` and the commit of its outcome as both the current and
      the frozen parameters. */
  function Optimise(policy: Policy, sampled: Batch, combined: Batch, c: Collaborators): (r: Progress)
    requires Conforms(c, |policy.current|)
    ensures r == EmptySample <==> |sampled.advantages| == 0
    ensures r == NonFinite <==> |sampled.advantages| > 0 && SearchOf(policy, sampled, combined, c).None?
    ensures r.Committed? ==>
      && |sampled.advantages| > 0
      && SearchOf(policy, sampled, combined, c).Some?
      && r.alpha == Run(SearchOf(policy, sampled, combined, c).value).alpha
      && r.trials == Run(SearchOf(policy, sampled, combined, c).value).trials
      && r.policy.current == TrialParams(SearchOf(policy, sampled, combined, c).value, r.alpha)
    ensures r.Committed? ==> r.sampleCoef == SampleCoefficient(sampled, combined)
    ensures r.Committed? ==> r.policy.current == r.policy.frozen && |r.policy.current| == |policy.current|
    ensures r.Committed? ==> r.trials <= MaxTrials
    ensures r.Committed? && r.alpha == 0.0 ==> r.policy.current == policy.current
    ensures r.Committed? && r.alpha != 0.0 ==> exists k :: 0 <= k < MaxTrials && r.alpha == HalfPow(k)
  {
    if |sampled.advantages| == 0 then EmptySample
    else
      match SearchOf(policy, sampled, combined, c)
      case None => NonFinite
      case Some(s) =>
        var o := Run(s);
        var params := TrialParams(s, o.alpha);
        Committed(Policy(params, params), o.alpha, o.trials, SampleCoefficient(sampled, combined))
  }

  /** The agent an update leaves behind (lines 69-73 and 116-117): once
      assembly succeeds the counter has ticked and the running score has
      taken in the mean return, whether or not the update then completes;
      an assembly that raises leaves the agent as it was. */
  function AgentAfter(agent: Dapg, paths: seq<Path>): (a: Dapg)
    ensures !Assembles(agent, paths) ==> a == agent
    ensures Assembles(agent, paths) ==>
      && a.iterCount == Tick(agent).iterCount
      && a.runningScore == Some(RunningScore(agent.runningScore, Mean(PathReturns(paths))))
    ensures a.(iterCount := agent.iterCount, runningScore := agent.runningScore) == agent
  {
    if Assembles(agent, paths) then
      Tick(agent).(runningScore := Some(RunningScore(agent.runningScore, Mean(PathReturns(paths)))))
    else agent
  }

  /** The whole update. */
  function TrainFromPaths(agent: Dapg, policy: Policy, paths: seq<Path>, c: Collaborators): (r: TrainResult)
    requires Conforms(c, |policy.current|)
    ensures |paths| == 0 ==> r == Raised(EmptyConcatenation, agent)
    ensures !Assembles(agent, paths) ==> r.Raised? && r.error != ZeroDivision
    ensures !Assembles(agent, paths) ==> r == Raised(Assemble(agent, paths, c.sqrt).error, agent)
    ensures r.agent == AgentAfter(agent, paths)
    ensures Assembles(agent, paths) && TotalLength(AdvantagesOf(paths)) == 0 ==> r == Raised(ZeroDivision, r.agent)
    ensures Assembles(agent, paths) && TotalLength(AdvantagesOf(paths)) > 0 ==> r.Done? || r.Diverged?
    ensures r.Diverged? <==>
      && Assembles(agent, paths)
      && Optimise(policy, Assemble(agent, paths, c.sqrt).value.sampled, Assemble(agent, paths, c.sqrt).value.combined, c)
         == NonFinite
    ensures r.Done? ==> r.policy.current == r.policy.frozen && |r.policy.current| == |policy.current|
    ensures r.Done? ==> |paths| > 0 && r.stats == BaseStats(paths, c.sqrt)
    ensures r.Done? ==> r.stats.min <= r.stats.mean <= r.stats.max
    ensures r.Done? ==>
      && Assembles(agent, paths)
      && Optimise(policy, Assemble(agent, paths, c.sqrt).value.sampled, Assemble(agent, paths, c.sqrt).value.combined, c)
         == Committed(r.policy, r.alpha, r.trials, r.sampleCoef)
    ensures r.Done? ==> r.trials <= MaxTrials && (r.alpha == 0.0 ==> r.policy.current == policy.current)
    ensures r.Done? && r.alpha != 0.0 ==> exists k :: 0 <= k < MaxTrials && r.alpha == HalfPow(k)
    ensures r.Done? && !DemoBranch(agent) ==> r.sampleCoef == 1.0
    ensures r.Done? && DemoBranch(agent) ==> 1.0 <= r.sampleCoef
  {
    match Assemble(agent, paths, c.sqrt)
    case Failure(e) => Raised(e, agent)
    case Success(a) =>
      var stats := BaseStats(paths, c.sqrt);
      var scored := a.agent.(runningScore := Some(RunningScore(agent.runningScore, stats.mean)));
      match Optimise(policy, a.sampled, a.combined, c)
      case EmptySample => Raised(ZeroDivision, scored)
      case NonFinite => Diverged(scored)
      case Committed(p, alpha, trials, coef) =>
        SampleCoefficientBounds(agent, paths, c.sqrt);
        Done(stats, scored, p, alpha, trials, coef)
  }

  // ---------------------------------------------------------------------
  // Lemmas

  /** Without a demo contribution (`lam_0 <= 0`) the update is the one an
      agent with no demo pool at all performs: same statistics, same step,
      same parameters, `sample_coef == 1`. */
  lemma VanillaUpdate(agent: Dapg, policy: Policy, paths: seq<Path>, c: Collaborators)
    requires Conforms(c, |policy.current|)
    requires agent.lam0 <= 0.0
    ensures var r1 := TrainFromPaths(agent, policy, paths, c);
      var r2 := TrainFromPaths(agent.(demoPaths := None), policy, paths, c);
      && r1.Done? == r2.Done?
      && (r1.Done? ==> r1.stats == r2.stats && r1.policy == r2.policy && r1.alpha == r2.alpha
                       && r1.trials == r2.trials && r1.sampleCoef == r2.sampleCoef == 1.0)
      && r1.agent.iterCount == r2.agent.iterCount == agent.iterCount
  {
    var vanilla := agent.(demoPaths := None);
    if |paths| > 0 {
      var a1 := Assemble(agent, paths, c.sqrt).value;
      var a2 := Assemble(vanilla, paths, c.sqrt).value;
      assert a1.sampled == a2.sampled && a1.combined == a2.combined;
      assert a1.agent == agent && a2.agent == vanilla;
    }
  }

  /** An update that gets past assembly, has a non-empty sampled batch and a
      finite trust-region step completes: it returns `base_stats` of the
      paths and commits the line search's `alpha` and parameters. */
  lemma FiniteStepCompletes(agent: Dapg, policy: Policy, paths: seq<Path>, c: Collaborators)
    requires Conforms(c, |policy.current|)
    requires Assembles(agent, paths) && TotalLength(AdvantagesOf(paths)) > 0
    requires var a := Assemble(agent, paths, c.sqrt).value; SearchOf(policy, a.sampled, a.combined, c).Some?
    ensures var r := TrainFromPaths(agent, policy, paths, c);
      var s := SearchOf(policy, Assemble(agent, paths, c.sqrt).value.sampled, Assemble(agent, paths, c.sqrt).value.combined, c).value;
      && r.Done?
      && r.stats == BaseStats(paths, c.sqrt)
      && r.alpha == Run(s).alpha
      && r.policy.current == r.policy.frozen == TrialParams(s, Run(s).alpha)
  {
  }

  /** Over two updates from an agent with no running score, once each
      gets past assembly (even if it then raises or diverges), the running
      score is first the mean return, then `0.9 * first + 0.1 * second`.
      `TrainFromPaths` leaves `AgentAfter` behind whatever the policy and the
      collaborators, so this holds for any two successive updates. */
  lemma RunningScoreTwoUpdates(agent: Dapg, p1: seq<Path>, p2: seq<Path>)
    requires agent.runningScore == None
    requires Assembles(agent, p1) && Assembles(agent, p2)
    ensures AgentAfter(agent, p1).runningScore == Some(Mean(PathReturns(p1)))
    ensures AgentAfter(AgentAfter(agent, p1), p2).runningScore
            == Some(0.9 * Mean(PathReturns(p1)) + 0.1 * Mean(PathReturns(p2)))
  {
    var m1, m2 := Mean(PathReturns(p1)), Mean(PathReturns(p2));
    StillAssembles(agent, p1, p2);
    StillAssembles(AgentAfter(agent, p1), p2, p2);
    assert RunningScore(Some(m1), m2) == 0.9 * m1 + 0.1 * m2;
  }

  /** An update that gets past assembly keeps the demonstration setting, so
      a batch that assembled before still assembles after it. */
  lemma StillAssembles(agent: Dapg, paths: seq<Path>, next: seq<Path>)
    requires Assembles(agent, paths) && Assembles(agent, next)
    ensures Assembles(AgentAfter(agent, paths), next)
  {
    var a := AgentAfter(agent, paths);
    assert a.demoPaths == agent.demoPaths && a.lam0 == agent.lam0;
  }
}

=== FILE: trustregion.dfy ===
/** The trust-region step of `DAPG.train_from_paths` (lines 154-156):
    curvature along the natural gradient, the Lagrange multiplier `lm`, and
    the full step `npg_grad / lm`. */
module TrustRegion {
  import opened Wrappers
  import opened RealSeq

  /** The fixed KL reference `lm` is calibrated against (not the configured `kl_dist`). */
  const ReferenceKl: real := 0.01

  /** A full step and the multiplier it was divided by. */
  datatype Step = Step(fullStep: seq<real>, lm: real)

  /** `shs = 0.5 * npg . Hvp(npg)`, `lm = sqrt(shs / 0.01)`, `full_step = npg / lm`.
      `None` stands for the non-finite step numpy would produce when the
      curvature is zero (`lm == 0`) or negative (`sqrt` of a negative). */
  function TrustRegionStep(npg: seq<real>, hnpg: seq<real>, sqrt: real -> real): (r: Option<Step>)
    requires |npg| == |hnpg|
    requires IsSqrt(sqrt)
    ensures r.Some? <==> 0.0 < Dot(npg, hnpg)
    ensures r.Some? ==> 0.0 < r.value.lm && r.value.lm * r.value.lm == 0.5 * Dot(npg, hnpg) / ReferenceKl
    ensures r.Some? ==> |r.value.fullStep| == |npg|
    ensures r.Some? ==> forall i :: 0 <= i < |npg| ==> r.value.fullStep[i] * r.value.lm == npg[i]
  {
    var shs := 0.5 * Dot(npg, hnpg);
    var x := shs / ReferenceKl;
    if x < 0.0 then None
    else
      var lm := sqrt(x);
      if lm == 0.0 then None
      else
        RootOfPositive(x, lm);
        Some(Step(Divide(npg, lm), lm))
  }

  /** A non-zero root has a positive square. */
  lemma RootOfPositive(x: real, root: real)
    requires root != 0.0 && root * root == x
    ensures 0.0 < x
  {
    if 0.0 < root {
      PositiveProduct(root, root);
    } else {
      PositiveProduct(-root, -root);
      assert (-root) * (-root) == root * root;
    }
    calc {
      x;
    ==
      root * root;
    >
      0.0;
    }
  }

  lemma PositiveProduct(a: real, b: real)
    requires 0.0 < a && 0.0 < b
    ensures 0.0 < a * b
  {
  }
}

=== FILE: wrappers.dfy ===
/** Failure-carrying values shared by the whole model. */
module Wrappers {

  /** A value that may be absent: Python's `None` or a present value. */
  datatype Option<+T> = None | Some(value: T)

  /** The exceptions `DAPG.train_from_paths` can raise on its own inputs. */
  datatype Error =
    | EmptyConcatenation   // np.concatenate over an empty list (ValueError)
    | IndexOutOfRange      // a demonstration row narrower than an index list (IndexError)
    | ZeroDivision         // sample_coef over an empty sampled batch (ZeroDivisionError)

  /** Either a computed value or the exception the source raises instead. */
  datatype Result<+T> = Success(value: T) | Failure(error: Error)
}
